=== FILE: README.md ===
# YouTube download relay, modelled in Dafny

The system is a small Flask web service with one endpoint besides the landing page (`GET /`), namely
`POST /download`. It takes a YouTube address from a form field and hands the video back to the browser as
an attachment. It comes in two variants:

- `youtube.py` has yt_dlp download the video into a per-video folder under a shared `downloads` folder, then
  sends the first file found there. Before that, it tries to delete every entry of the shared folder older
  than thirty minutes with `os.remove`, which only succeeds on plain files, and removes every entry whose
  name starts with the video id.
- `app.py` asks yt_dlp only for the stream location, the title and the extension, fetches the stream with
  `requests`, and relays its chunks to the client under a sanitised file name.

Both variants share three string helpers, defined identically in both files: the URL check
`is_valid_youtube_url`, the video-id extraction `get_video_id` and the file-name sanitiser
`sanitize_filename`. Each is modelled once.

Modules, one per file:

- `Wrappers`: `Option` and `Result`. A `Result` failure carries the text of the raised exception.
- `Subsequences`: order-preserving subsequences. The filename filter and the chunk filter are stated with them.
- `Filename`: `sanitize_filename`, split into the character filter `KeepAllowed` and the end trim `Strip`.
- `YoutubeUrl`: `is_valid_youtube_url` and `get_video_id`.
  - The URL check is a `re.match`: anchored at the start, free at the end. It is written as one predicate
    per regular-expression group, each applied to what the previous group leaves.
  - The `.+\?v=` alternative is an existential over the split point.
  - The id extraction is a `re.search`, so it is the leftmost index where `v=` or `/` is followed by eleven
    characters of `[0-9A-Za-z_-]`.
- `ArtifactStore`: the shared downloads folder as a map from entry name to entry. Each entry is a file or a
  folder, with an age in microseconds. The module also has:
  - the age sweep `clear_old_downloads`;
  - folder creation;
  - the replacement of the per-video folder;
  - the loop that removes every entry whose name starts with the id.
- `Http`: the no-cache headers both variants add.
- `DiskHandler`: `download_video` of `youtube.py`. It is a function from:
  - the form fields;
  - the downloads folder as found;
  - the set of names the system refuses to delete;
  - what yt_dlp did.

  It returns the reply, the folder afterwards and the steps taken.
- `ChunkStream`: bytes, chunks, and the `generate()` chunk filter of `app.py`.
- `StreamHandler`: `download_video` of `app.py`. It is a function from:
  - the form fields;
  - what `extract_info` returned;
  - what `requests.get` returned.

  It also has the file name, the `Content-Disposition` value and the reply headers.
- `Variants`: how the two handlers compare on the same form input.

The environment is a set of parameters:

- Clock: the age of every entry is given.
- `os.listdir` order: `ClearOldDownloads` and `PurgeVideoEntries` take the listing as a parameter, and the
  result does not depend on it. `Downloaded(written)` lists the files yt_dlp wrote in listing order.
- Deletions the operating system refuses: the set `undeletable`.
- yt_dlp and the upstream fetch: `Download`, `Extraction` and `Upstream` values.
- Upstream header names are given in lower case (`content-type`, `content-length`). `requests` looks
  header names up regardless of case, so an upstream header spelled `Content-Type` must be supplied as
  `content-type`; the model only looks up the lower-case names.

### Behaviour the model makes explicit

- The removal loop of `youtube.py` runs at lines 81-90, right after line 78 creates the per-video folder.
  It removes every entry whose name starts with the id, and that includes the new folder.
  - `ArtifactStore.PurgeRemovesFreshFolder` states this.
  - `DiskHandler.NoFilesOnlyIfFolderKept` states the consequence. When yt_dlp writes nothing, the reply is
    the `os.listdir` error for the missing folder. The "No files were downloaded" text appears only when the
    folder was new and its removal failed.
- The age sweep deletes with `os.remove` (youtube.py:45), which refuses folders; the error is only logged
  (youtube.py:47-48). Every download lives in a per-video folder (youtube.py:75-78, 94), so the sweep never
  removes a download by age, only stray plain files (`ArtifactStore.SweepKeeps`). Old per-video folders go
  only when a later request for the same id clears them.
- The URL check admits any character except `&=%?` in the eleven-character tail. The id extraction admits
  only `[0-9A-Za-z_-]`. So a URL can pass the check and still have no id (`YoutubeUrl.ValidUrlWithoutId`).
  `is_valid_youtube_url` does not return the id; `get_video_id` is a separate step, and the disk handler
  checks its result again.
- `app.py` never looks at the upstream status code. An error status is relayed as a 200 stream of the error
  body (`StreamHandler.UpstreamStatusIgnored`).
- On a missing or empty `url` field the variants differ (`Variants.MissingOrEmptyUrl`):
  - `youtube.py` indexes the form. A missing field raises Werkzeug's `BadRequestKeyError`, whose text is
    that of an HTTP 400 error. The handler's general exception clause turns it into a 500 "Failed to
    download video: 400 Bad Request: The browser (or proxy) sent a request that this server could not
    understand." An empty field is a 400 "Invalid YouTube URL".
  - `app.py` answers 400 "No URL provided" to both.

## Model

| member | source | states |
|---|---|---|
| Filename.KeepAllowed | youtube.py:20-21 | the result consists only of allowed characters and is a subsequence of the input, in the original order |
| Filename.KeepAllowedCounts | youtube.py:20-21 | every allowed character is kept exactly as many times as it occurs, and every other character is dropped |
| Filename.Strip | youtube.py:23 | the result is the input with a run of dots and spaces removed from each end and clean ends left; it is empty exactly when the input is all dots and spaces; it keeps the allowed character set |
| Filename.SanitizeFilename | youtube.py:18-24 | the result is never empty, uses only `-_.() `, ASCII letters and digits, and neither starts nor ends with a dot or a space; the fallback `video` is taken exactly when no usable character is present; otherwise the result is the filtered title with its dots and spaces trimmed from both ends, a subsequence of the title |
| Filename.SanitizeFixedPoints | youtube.py:18-24 | a string is left unchanged exactly when it is non-empty, uses only allowed characters and has clean ends |
| Filename.SanitizeIdempotent | youtube.py:18-24 | sanitising a sanitised name changes nothing |
| Filename.SanitizedHasNoQuote | app.py:21-27 | a sanitised name never contains a double quote, so it cannot end the quoted header value early |
| Filename.SanitizeFallbackExamples | youtube.py:24 | the empty title and `...   ` both become `video` |
| Filename.SanitizeDropsDisallowed | youtube.py:20-23 | characters outside the allowed set between two kept parts are deleted rather than replaced |
| Filename.SanitizeKeepsExample | youtube.py:18-24 | `My Video!! (2024).mp4` becomes `My Video (2024).mp4` |
| YoutubeUrl.ValidUrlExtends | youtube.py:14-16 | acceptance depends only on a prefix: an accepted URL stays accepted with anything appended |
| YoutubeUrl.ValidUrlLength | youtube.py:15 | every accepted URL has at least twenty characters, so the empty string is rejected |
| YoutubeUrl.WatchUrlValid | youtube.py:14-16 | the canonical `https://www.youtube.com/watch?v=<id>` address passes the check for every well-formed id |
| YoutubeUrl.SearchFrom | youtube.py:28-29 | the search returns the leftmost index at or after the start where the marker and eleven id characters fit, or nothing when no index fits |
| YoutubeUrl.GetVideoId | youtube.py:26-30 | the result is absent exactly when no index fits; otherwise it is eleven characters of `[0-9A-Za-z_-]`, taken right after the leftmost `v=` or `/` that is followed by such a run |
| YoutubeUrl.WatchUrlId | youtube.py:26-30 | the id read back from the canonical watch address is the id it was built from |
| YoutubeUrl.ValidUrlWithoutId | youtube.py:14-30 | the check and the extraction disagree: `youtu.be/abc!defghij` passes the check and has no id |
| ArtifactStore.ExpiredMeansOlderInMinutes | youtube.py:41-43 | comparing integer microseconds with the limit times sixty million is exactly the real-valued comparison of the age in minutes |
| ArtifactStore.ClearOldDownloads | youtube.py:32-48 | a missing folder is left alone; in any listing order, an entry is removed exactly when it is strictly older than the limit and `os.remove` succeeds on it; a refused removal is logged and the walk goes on; surviving entries are unchanged |
| ArtifactStore.SweepExample | youtube.py:32-45 | with the thirty-minute default, a five-minute-old file stays and a forty-five-minute-old file goes |
| ArtifactStore.SweepKeeps | youtube.py:43-48 | an entry exactly at the limit is kept, and so is every folder whatever its age |
| ArtifactStore.SweepIdempotent | youtube.py:37-48 | a second sweep at the same moment removes nothing more |
| ArtifactStore.MakeRoot | youtube.py:64 | creating the downloads folder yields an empty folder if it was missing and changes nothing otherwise |
| ArtifactStore.ResetVideoFolder | youtube.py:75-78 | replacing the per-video folder fails exactly when an entry of that name is a plain file or cannot be deleted; otherwise the folder is empty and new, and every other entry is unchanged |
| ArtifactStore.PurgePrefix | youtube.py:81-90 | removing the entries whose name starts with the id never adds or alters an entry |
| ArtifactStore.PurgeVideoEntries | youtube.py:81-90 | in any listing order, an entry whose name starts with the id is gone unless its removal raised, a failure is logged exactly for those entries, and every other entry is untouched |
| ArtifactStore.PurgeRemovesFreshFolder | youtube.py:75-90 | the per-video folder created just before the loop survives it exactly when its removal raises |
| DiskHandler.ServeDownloaded | youtube.py:120-145 | a file is sent exactly when the download wrote one, and then it is the first one listed, from the id's folder, as `video/mp4` with the no-cache headers; every failure here is a 500 |
| DiskHandler.FromVideoFolder | youtube.py:75-154 | every failure after the id is known is a 500 carrying the `Failed to download video: ` prefix, and the downloads folder exists afterwards; a refused reset of the per-video folder answers with that exception's text, a raising download with its own text, and a download that wrote files is answered with the first of them |
| DiskHandler.DownloadVideo | youtube.py:55-154 | a missing `url` field is a 500 and an invalid URL a 400, both leaving the folder untouched; a URL with no id is a 400 after the folder was created and swept; every 500 carries the `Failed to download video: ` prefix |
| DiskHandler.WrittenFileIsSent | youtube.py:55-145 | for the whole request: a valid URL with an id whose folder could be replaced, and a download that wrote files, is answered by sending the first file written, as `video/mp4` with the no-cache headers |
| DiskHandler.ServerErrorIsCause | youtube.py:75-154 | once the id is known, a 500 is `Failed to download video: ` plus the text of exactly the exception raised: the refused folder reset, yt_dlp's failure, "Failed to extract video information", and, with nothing written, the `os.listdir` error when the purge removed the folder or "No files were downloaded" when it was kept |
| DiskHandler.BadRequestExactly | youtube.py:57-72 | the reply is a 400 exactly when the URL fails the check or yields no id |
| DiskHandler.SentFileIsFresh | youtube.py:75-145 | a sent file comes from the folder named by the extracted id, is one the download just wrote, goes out as `video/mp4` with the no-cache headers, and the folder holds exactly the files written |
| DiskHandler.NoFilesInFolder | youtube.py:75-123 | with nothing written, the "No files were downloaded" failure happens exactly when the per-video folder was new and its removal failed |
| DiskHandler.NoFilesOnlyIfFolderKept | youtube.py:55-154 | for the whole request, with nothing written, the reply is a 500, and it is "No files were downloaded" exactly when the per-video folder did not exist before and cannot be deleted |
| DiskHandler.DownloadReachedExactly | youtube.py:57-115 | yt_dlp is called exactly when the URL passes, yields an id and the per-video folder could be replaced, whether the download then raises, returns nothing or writes files |
| DiskHandler.PrefixedEntriesCleared | youtube.py:66-90 | after a request that reaches yt_dlp, whether the download raised, returned nothing or wrote files, an entry starting with the id remains only if its removal raised or it is the folder the download wrote; every other entry is as the sweep left it |
| DiskHandler.PrefixedEntriesInFolder | youtube.py:75-90 | from the swept folder onwards: once yt_dlp has been called, whatever its outcome, an entry starting with the id remains only if its removal raised or the download wrote it, and every other entry is untouched |
| ChunkStream.Generate | app.py:92-95 | the forwarded chunks are all non-empty, keep the upstream order, and together carry exactly the upstream bytes |
| ChunkStream.GenerateCounts | app.py:92-95 | each non-empty chunk is forwarded as many times as it arrives, and no empty chunk is forwarded |
| ChunkStream.GenerateOfNonEmpty | app.py:92-95 | a stream with no empty chunk is forwarded unchanged |
| ChunkStream.GenerateIdempotent | app.py:92-95 | filtering the forwarded stream again changes nothing |
| ChunkStream.GenerateAppend | app.py:92-95 | the filter works chunk by chunk, so it commutes with splitting the upstream body |
| StreamHandler.RequestedUrl | app.py:60-62 | the URL counts as absent exactly when the field is missing or empty |
| StreamHandler.ReadInfo | app.py:79-82 | reading the extracted information fails with the extractor's own text, with the text of subscripting `None`, or with the first missing key of `url`, `title`, `ext` in that order; it succeeds exactly when all three are present |
| StreamHandler.SplitExtension | app.py:86 | inverse of app.py:86, as a client reads the name back: a name containing a dot splits into a stem and a dot-free extension that join back to the name |
| StreamHandler.SplitJoin | app.py:86 | any stem joined to a dot-free extension with a dot splits back into the same two parts |
| StreamHandler.FilenameSplitsBack | app.py:85-86 | the saved name splits back into the sanitised title and the extension whenever the extension has no dot |
| StreamHandler.ParseDisposition | app.py:104 | inverse of app.py:104, as a client reads the header back: a value that parses is exactly the header built from the parsed, quote-free name |
| StreamHandler.DispositionRoundTrip | app.py:104 | every quote-free file name is read back unchanged from its `Content-Disposition` value |
| StreamHandler.DispositionNamesFile | app.py:85-104 | the header names the whole saved file whenever the extension has no quote |
| StreamHandler.StreamHeaders | app.py:98-109 | the reply has the attachment disposition, `Accept-Ranges: bytes` and the no-cache headers; its content type is the upstream one or `video/mp4`; it has a `Content-Length` exactly when the upstream has one, and with the same value |
| StreamHandler.DownloadStream | app.py:58-115 | a missing or empty URL is a 400 "No URL provided" and an invalid one a 400 "Invalid YouTube URL"; every reply is a 400, a 500 or a 200 stream; a stream needs complete information and a fetched upstream, carries the filtered upstream chunks, and its headers are those built from the upstream headers and the saved file name |
| StreamHandler.BadRequestExactly | app.py:60-65 | the reply is a 400 exactly when the field is missing or the URL fails the check |
| StreamHandler.ServerErrorIsCause | app.py:77-115 | a 500 carries the raised exception's text unchanged, without a prefix, for each failure in order |
| StreamHandler.StreamReplyContents | app.py:84-111 | a streamed reply names the sanitised title with the extension, has the fixed download headers, takes its content type from the upstream or else `video/mp4`, has a `Content-Length` exactly when the upstream has one and with the same value, and forwards exactly the upstream bytes in non-empty chunks |
| StreamHandler.UpstreamStatusIgnored | app.py:89-111 | the reply does not depend on the upstream status code |
| Variants.MissingOrEmptyUrl | youtube.py:57-60 | on a missing or empty field the relay answers 400 "No URL provided", while the disk variant answers 500 for a missing field and 400 "Invalid YouTube URL" for an empty one |
| Variants.SameUrlCheck | app.py:64-65 | for a non-empty field, both variants reject a URL with the same 400 reply under the same check |

## Left out

- Flask plumbing is not modelled: routing, the landing page, `jsonify`, `send_file`'s own handling of the file
  and its attachment header, `app.run` and port parsing, and `MAX_CONTENT_LENGTH`. Replies are records of
  status, text and headers.
- `DOWNLOAD_FOLDER` (app.py:15) is configuration the handler never reads.
- yt_dlp is reduced to its outcome. Its options, `cache.remove`, the FFmpeg conversion and the text of its
  exceptions are outside the program.
  - On the disk side the outcome is: raised, returned nothing, or wrote these files.
  - On the relay side it is: raised, returned nothing, or returned this information.
- `requests.get` and `iter_content` are network I/O. The upstream is a finished sequence of chunks, so the
  following are not modelled:
  - the 8192-byte chunk size;
  - back-pressure;
  - a connection that fails after the first chunk, which the client would see as a truncated download.
- Clocks and the float minute arithmetic are replaced by integer ages in microseconds. The comparison is
  exact for those (`ArtifactStore.ExpiredMeansOlderInMinutes`). The rounding of `getmtime` and
  `total_seconds` is not modelled.
- Logging (`print`, `app.logger`) is not modelled. The sweep and the removal loop return their log lines as
  values.
- Concurrent requests racing on the shared folder are concurrency, not sequential logic. For the same reason
  the "Downloaded file not found" branch (youtube.py:129-130) is not modelled: without another process, the
  first listed file exists.
- Operating-system error texts carry the entry name where the source prints the full path, because the
  downloads folder's absolute location is not part of the model.
- ArtifactStore.ResetVideoFolder: a refused deletion is given one representative text
  (`ArtifactStore.PermissionDenied`, "[Errno 13] Permission denied: '<name>'"). In the source the text is
  that of whatever `OSError` the refusal raised (EPERM, EBUSY and others), and `shutil.rmtree`
  (youtube.py:77) may name a path inside the folder rather than the folder itself. No property depends on
  the errno: the proofs only use that the text starts with `[`.
- DiskHandler.DownloadVideo: the downloads folder is either missing or a folder. A plain file in its place
  makes `os.makedirs` (youtube.py:64) raise `FileExistsError`, which the source answers with a 500. That
  error path is not modelled.
- Entries are only files and folders. An entry that is neither, such as a dangling link that `os.path.isfile`
  and `os.path.isdir` both reject, is not modelled.
- DiskHandler.DownloadVideo: removal is all or nothing. A `shutil.rmtree` that fails partway leaves part of a
  folder behind in the source; in the model a refused removal leaves the entry whole.
- DiskHandler.DownloadVideo: a download that raises after writing part of a file leaves that file behind in
  the source. In the model the folder is as the removal loop left it.
- StreamHandler.StreamHeaders: when the upstream has no `content-length`, the source assigns `None` to the
  header, and how the web framework renders that is library behaviour. The model leaves the header out.
- StreamHandler.ReadInfo: the extracted values are modelled as strings. A non-string title, which would
  make the sanitiser raise, is not modelled.

=== FILE: artifact_store.dfy ===
/**
  The downloads folder the disk handler works in, seen as a map from entry
  name to entry, together with the operations the handler performs on it:
  creating it, the age-based sweep, replacing the per-video folder, and
  removing every entry whose name starts with the video id.

  Whether the operating system refuses to delete an entry (permissions, a
  busy file) is outside the program; it is the parameter `undeletable`, the
  set of names whose removal raises.
 */
module ArtifactStore {
  import opened Wrappers

  /** What an entry directly under the downloads folder is. */
  datatype Node = File | Folder(children: set<string>)

  /** An entry and its age: microseconds between its last modification and
      the moment the request looks at it (negative if the clock says the file
      comes from the future). */
  datatype Entry = Entry(node: Node, age: int)

  /** The downloads folder: absent, or present with its direct entries by name. */
  datatype Store = Missing | Present(entries: map<string, Entry>)

  const MicrosPerMinute: int := 60_000_000

  /** The retention period `clear_old_downloads` uses unless told otherwise. */
  const DefaultKeepMinutes: int := 30

  /** `age_minutes > keep_minutes`, where `age_minutes` is the age in
      microseconds divided by sixty million. */
  predicate IsExpired(e: Entry, keepMinutes: int) {
    e.age > keepMinutes * MicrosPerMinute
  }

  /** The integer comparison is the real-valued minute comparison of the source. */
  lemma ExpiredMeansOlderInMinutes(e: Entry, keepMinutes: int)
    ensures IsExpired(e, keepMinutes) <==> (e.age as real) / (MicrosPerMinute as real) > keepMinutes as real
  {
  }

  /** `os.remove` on the entry succeeds: it is a file and the system lets go of it.
      On a folder `os.remove` always raises. */
  predicate RemoveSucceeds(name: string, e: Entry, undeletable: set<string>) {
    e.node.File? && name !in undeletable
  }

  /** The sweep deletes this entry. */
  predicate SweptAway(name: string, e: Entry, keepMinutes: int, undeletable: set<string>) {
    IsExpired(e, keepMinutes) && RemoveSucceeds(name, e, undeletable)
  }

  /** The folder after `clear_old_downloads`: every expired entry `os.remove`
      could delete is gone, everything else is as it was. */
  function Sweep(store: Store, keepMinutes: int, undeletable: set<string>): (r: Store)
    ensures store.Missing? <==> r.Missing?
    ensures store.Present? ==> r.entries.Keys <= store.entries.Keys
  {
    match store
    case Missing => Missing
    case Present(entries) =>
      Present(map n | n in entries && !SweptAway(n, entries[n], keepMinutes, undeletable) :: entries[n])
  }

  /** One line the sweep prints. */
  datatype SweepLog = Removed(name: string) | RemoveFailed(name: string)

  /** `names` is what `os.listdir` returns for a folder with entries `keys`:
      every entry once. */
  predicate IsListing(names: seq<string>, keys: set<string>) {
    && (forall i :: 0 <= i < |names| ==> names[i] in keys)
    && (forall n :: n in keys ==> n in names)
    && (forall i, j :: 0 <= i < j < |names| ==> names[i] != names[j])
  }

  /** `clear_old_downloads(download_path, keep_minutes)`, walking the entries
      in the order `os.listdir` gives them.  Nothing happens when the folder
      is missing.  Each expired entry is handed to `os.remove`; a removal that
      raises is logged and the walk goes on with the next entry. */
  method ClearOldDownloads(store: Store, listing: seq<string>, keepMinutes: int, undeletable: set<string>)
    returns (after: Store, log: seq<SweepLog>)
    requires store.Present? ==> IsListing(listing, store.entries.Keys)
    ensures store.Missing? ==> after == Missing && log == []
    ensures store.Present? ==> after.Present?
    ensures store.Present? ==> forall n :: n in store.entries ==>
              (n in after.entries <==> !SweptAway(n, store.entries[n], keepMinutes, undeletable))
    ensures store.Present? ==> forall n :: n in after.entries ==> n in store.entries && after.entries[n] == store.entries[n]
    ensures forall n :: Removed(n) in log <==>
              store.Present? && n in store.entries && SweptAway(n, store.entries[n], keepMinutes, undeletable)
    ensures forall n :: RemoveFailed(n) in log <==>
              store.Present? && n in store.entries && IsExpired(store.entries[n], keepMinutes)
              && !RemoveSucceeds(n, store.entries[n], undeletable)
    ensures after == Sweep(store, keepMinutes, undeletable)
  {
    if store.Missing? {
      return Missing, [];
    }
    var entries := store.entries;
    log := [];
    for i := 0 to |listing|
      invariant entries.Keys <= store.entries.Keys
      invariant forall n :: n in entries ==> entries[n] == store.entries[n]
      invariant forall n :: n in store.entries ==>
                  (n in entries <==> !(n in listing[..i] && SweptAway(n, store.entries[n], keepMinutes, undeletable)))
      invariant forall n :: Removed(n) in log <==>
                  n in listing[..i] && SweptAway(n, store.entries[n], keepMinutes, undeletable)
      invariant forall n :: RemoveFailed(n) in log <==>
                  n in listing[..i] && IsExpired(store.entries[n], keepMinutes)
                  && !RemoveSucceeds(n, store.entries[n], undeletable)
    {
      var name := listing[i];
      assert listing[..i + 1] == listing[..i] + [name];
      assert name !in listing[..i];
      var e := entries[name];
      if IsExpired(e, keepMinutes) {
        if RemoveSucceeds(name, e, undeletable) {
          entries := map n | n in entries && n != name :: entries[n];
          log := log + [Removed(name)];
        } else {
          log := log + [RemoveFailed(name)];
        }
      }
    }
    assert listing[..|listing|] == listing;
    after := Present(entries);
  }

  /** With the default thirty minutes, a file five minutes old stays and a
      file forty-five minutes old goes. */
  lemma SweepExample()
    ensures var before := Present(map["fresh.mp4" := Entry(File, 5 * MicrosPerMinute),
                                      "stale.mp4" := Entry(File, 45 * MicrosPerMinute)]);
            Sweep(before, DefaultKeepMinutes, {}) == Present(map["fresh.mp4" := Entry(File, 5 * MicrosPerMinute)])
  {
    var before := map["fresh.mp4" := Entry(File, 5 * MicrosPerMinute),
                      "stale.mp4" := Entry(File, 45 * MicrosPerMinute)];
    var expected := map["fresh.mp4" := Entry(File, 5 * MicrosPerMinute)];
    assert "fresh.mp4" != "stale.mp4";
    assert Sweep(Present(before), DefaultKeepMinutes, {}).entries.Keys == expected.Keys;
  }

  /** The limit is strict: an entry exactly `keepMinutes` old is kept, and so
      is every folder whatever its age, because `os.remove` refuses folders. */
  lemma SweepKeeps(store: Store, keepMinutes: int, undeletable: set<string>, name: string)
    requires store.Present? && name in store.entries
    requires store.entries[name].age == keepMinutes * MicrosPerMinute || store.entries[name].node.Folder?
    ensures var r := Sweep(store, keepMinutes, undeletable);
            name in r.entries && r.entries[name] == store.entries[name]
  {
  }

  /** Sweeping again at the same moment removes nothing more. */
  lemma SweepIdempotent(store: Store, keepMinutes: int, undeletable: set<string>)
    ensures Sweep(Sweep(store, keepMinutes, undeletable), keepMinutes, undeletable)
            == Sweep(store, keepMinutes, undeletable)
  {
    if store.Present? {
      var once := Sweep(store, keepMinutes, undeletable);
      var twice := Sweep(once, keepMinutes, undeletable);
      assert twice.entries.Keys == once.entries.Keys;
    }
  }

  /** `os.makedirs(download_path, exist_ok=True)`. */
  function MakeRoot(store: Store): (r: Store)
    ensures r.Present?
    ensures store.Present? ==> r == store
    ensures store.Missing? ==> r.entries == map[]
  {
    match store
    case Missing => Present(map[])
    case Present(_) => store
  }

  /** Text of the exception `shutil.rmtree` raises on a plain file. */
  function NotADirectory(name: string): string {
    "[Errno 20] Not a directory: '" + name + "'"
  }

  /** Text of the exception raised when the system refuses a deletion.  The
      errno stands for whichever one the refusal carries; only the leading
      `[` matters to the proofs. */
  function PermissionDenied(name: string): string {
    "[Errno 13] Permission denied: '" + name + "'"
  }

  /** Text of the exception `os.listdir` raises on a missing folder. */
  function NoSuchDirectory(name: string): string {
    "[Errno 2] No such file or directory: '" + name + "'"
  }

  /** Lines 75-78 of the disk handler: remove an existing entry named `id`
      with `shutil.rmtree`, then create an empty folder of that name. */
  function ResetVideoFolder(entries: map<string, Entry>, id: string, undeletable: set<string>)
    : (r: Result<map<string, Entry>, string>)
    ensures r.Failure? <==> id in entries && (entries[id].node.File? || id in undeletable)
    ensures r.Success? ==> r.value.Keys == entries.Keys + {id}
    ensures r.Success? ==> r.value[id] == Entry(Folder({}), 0)
    ensures r.Success? ==> forall n :: n in entries && n != id ==> r.value[n] == entries[n]
  {
    if id in entries && entries[id].node.File? then Failure(NotADirectory(id))
    else if id in entries && id in undeletable then Failure(PermissionDenied(id))
    else Success(entries[id := Entry(Folder({}), 0)])
  }

  /** Lines 81-90 of the disk handler: every entry whose name starts with `id`
      is unlinked (a file) or removed with `shutil.rmtree` (a folder); a
      removal that raises is logged and skipped. */
  function PurgePrefix(entries: map<string, Entry>, id: string, undeletable: set<string>): (r: map<string, Entry>)
    ensures r.Keys <= entries.Keys
    ensures forall n :: n in r ==> r[n] == entries[n]
  {
    map n | n in entries && (!(id <= n) || n in undeletable) :: entries[n]
  }

  /** One line the purge prints. */
  datatype PurgeLog = PurgeFailed(name: string)

  /** The purge loop itself, walking the entries in `os.listdir` order: a name
      that does not start with `id` is passed over, one that does is removed,
      and a removal that raises is logged without stopping the walk.  It ends
      where the one-step description `PurgePrefix` says. */
  method PurgeVideoEntries(entries: map<string, Entry>, listing: seq<string>, id: string, undeletable: set<string>)
    returns (after: map<string, Entry>, log: seq<PurgeLog>)
    requires IsListing(listing, entries.Keys)
    ensures after == PurgePrefix(entries, id, undeletable)
    ensures forall n :: n in entries && id <= n ==> (n in after <==> n in undeletable)
    ensures forall n :: n in entries && !(id <= n) ==> n in after && after[n] == entries[n]
    ensures forall n :: PurgeFailed(n) in log <==> n in entries && id <= n && n in undeletable
  {
    after := entries;
    log := [];
    for i := 0 to |listing|
      invariant after.Keys <= entries.Keys
      invariant forall n :: n in after ==> after[n] == entries[n]
      invariant forall n :: n in entries ==>
                  (n in after <==> !(n in listing[..i] && id <= n && n !in undeletable))
      invariant forall n :: PurgeFailed(n) in log <==> n in listing[..i] && id <= n && n in undeletable
    {
      var name := listing[i];
      assert listing[..i + 1] == listing[..i] + [name];
      if id <= name {
        if name in undeletable {
          log := log + [PurgeFailed(name)];
        } else {
          after := map n | n in after && n != name :: after[n];
        }
      }
    }
    assert listing[..|listing|] == listing;
  }

  /** The quirk made concrete: right after the per-video folder is created,
      the purge deletes it again unless the system refuses. */
  lemma PurgeRemovesFreshFolder(entries: map<string, Entry>, id: string, undeletable: set<string>)
    requires ResetVideoFolder(entries, id, undeletable).Success?
    ensures id in PurgePrefix(ResetVideoFolder(entries, id, undeletable).value, id, undeletable)
            <==> id in undeletable
  {
  }
}

=== FILE: chunk_stream.dfy ===
/**
  The body of the streaming reply: the upstream body arrives as a finite
  sequence of byte chunks, and `generate()` forwards every chunk that is not
  empty.
 */
module ChunkStream {
  import opened Subsequences

  newtype Byte = b: int | 0 <= b < 256

  type Chunk = seq<Byte>

  /** The bytes of a chunk sequence, in order. */
  function Flatten(chunks: seq<Chunk>): seq<Byte>
    decreases |chunks|
  {
    if chunks == [] then [] else chunks[0] + Flatten(chunks[1..])
  }

  /** `generate()` of the streaming handler: the upstream chunks with the
      empty ones left out.  The result has no empty chunk, keeps the order,
      and carries exactly the upstream bytes. */
  function Generate(chunks: seq<Chunk>): (r: seq<Chunk>)
    ensures forall i :: 0 <= i < |r| ==> r[i] != []
    ensures IsSubsequence(r, chunks)
    ensures Flatten(r) == Flatten(chunks)
    decreases |chunks|
  {
    if chunks == [] then []
    else
      var rest := Generate(chunks[1..]);
      if chunks[0] == [] then
        SubsequenceWeaken(rest, chunks[1..], chunks[0]);
        assert [chunks[0]] + chunks[1..] == chunks;
        rest
      else
        assert ([chunks[0]] + rest)[1..] == rest;
        [chunks[0]] + rest
  }

  /** Every non-empty upstream chunk is forwarded as often as it arrives, and
      no empty chunk is; together with the order kept, the output is exactly
      the non-empty chunks. */
  lemma {:induction false} GenerateCounts(chunks: seq<Chunk>, c: Chunk)
    ensures multiset(Generate(chunks))[c] == if c == [] then 0 else multiset(chunks)[c]
    decreases |chunks|
  {
    if chunks != [] {
      GenerateCounts(chunks[1..], c);
      assert chunks == [chunks[0]] + chunks[1..];
      assert multiset(chunks) == multiset([chunks[0]]) + multiset(chunks[1..]);
    }
  }

  /** Forwarding an already filtered stream changes nothing. */
  lemma {:induction false} GenerateOfNonEmpty(chunks: seq<Chunk>)
    requires forall i :: 0 <= i < |chunks| ==> chunks[i] != []
    ensures Generate(chunks) == chunks
    decreases |chunks|
  {
    if chunks != [] {
      GenerateOfNonEmpty(chunks[1..]);
      assert [chunks[0]] + chunks[1..] == chunks;
    }
  }

  /** Filtering twice is filtering once. */
  lemma GenerateIdempotent(chunks: seq<Chunk>)
    ensures Generate(Generate(chunks)) == Generate(chunks)
  {
    GenerateOfNonEmpty(Generate(chunks));
  }

  /** The filter works chunk by chunk, so it commutes with splitting the
      upstream body anywhere. */
  lemma {:induction false} GenerateAppend(a: seq<Chunk>, b: seq<Chunk>)
    ensures Generate(a + b) == Generate(a) + Generate(b)
    decreases |a|
  {
    if a != [] {
      assert (a + b)[0] == a[0];
      assert (a + b)[1..] == a[1..] + b;
      GenerateAppend(a[1..], b);
    } else {
      assert a + b == b;
    }
  }
}

=== FILE: disk_handler.dfy ===
/**
  The `/download` handler of youtube.py: validate the URL, prepare the
  downloads folder, let yt_dlp write the video into a per-video folder, and
  send the first file found there.

  yt_dlp is opaque.  Its effect is the parameter `download`: it raised, it
  returned no information, or it returned information after writing some
  files into the per-video folder (in the order `os.listdir` will list them).
 */
module DiskHandler {
  import opened Wrappers
  import opened YoutubeUrl
  import opened ArtifactStore
  import opened Http

  /** What `ydl.extract_info(url, download=True)` did, seen from the handler. */
  datatype Download =
    | DownloadRaised(message: string)
    | NoInfo
    | Downloaded(written: seq<string>)

  /** The reply: a JSON error with a status, or the file sent with `send_file`. */
  datatype Reply =
    | JsonError(status: int, error: string)
    | SendFile(folder: string, fileName: string, mimetype: string, headers: Headers)

  /** The steps that touch the downloads folder, in the order they happen. */
  datatype Step = CreatedRoot | Swept | ResetFolder | Purged | RanDownload

  /** The reply, the downloads folder afterwards, and the steps taken. */
  datatype Outcome = Outcome(reply: Reply, store: Store, steps: seq<Step>)

  const ServerErrorPrefix: string := "Failed to download video: "

  /** Every exception the handler catches becomes a 500 with this text. */
  function ServerError(message: string): Reply {
    JsonError(500, ServerErrorPrefix + message)
  }

  /** The text of the exception indexing the form with a missing key raises:
      Werkzeug's `BadRequestKeyError`, whose text is that of its HTTP 400
      error rather than the key. */
  const MissingUrlKey: string :=
    "400 Bad Request: The browser (or proxy) sent a request that this server could not understand."

  /** The steps that run once the URL has passed the check. */
  const PreparedSteps: seq<Step> := [CreatedRoot, Swept]

  /** The steps of a request that gets as far as calling yt_dlp. */
  const DownloadSteps: seq<Step> := PreparedSteps + [ResetFolder, Purged, RanDownload]

  /** Lines 121-145: list the per-video folder after the download and send its
      first file. */
  function ServeDownloaded(entries: map<string, Entry>, id: string, written: seq<string>): (o: Outcome)
    ensures o.reply.SendFile? <==> written != []
    ensures written != [] ==> o.reply == SendFile(id, written[0], "video/mp4", NoCacheHeaders)
    ensures o.reply.JsonError? ==> o.reply.status == 500
  {
    var after := if written != [] then entries[id := Entry(Folder(set n | n in written), 0)] else entries;
    var steps := DownloadSteps;
    if id !in after then
      Outcome(ServerError(NoSuchDirectory(id)), Present(after), steps)
    else if written == [] then
      Outcome(ServerError("No files were downloaded"), Present(after), steps)
    else
      Outcome(SendFile(id, written[0], "video/mp4", NoCacheHeaders), Present(after), steps)
  }

  /** `download_video()` in youtube.py, for the form fields `form`, the
      downloads folder `store` as found, and the yt_dlp effect `download`.
      The sweep and the prefix removal do not depend on the order in which
      the downloads folder is listed; the file sent is the first of
      `download.written`, which is in the order the per-video folder lists. */
  function DownloadVideo(form: map<string, string>, store: Store, undeletable: set<string>, download: Download)
    : (o: Outcome)
    ensures "url" !in form ==> o == Outcome(ServerError(MissingUrlKey), store, [])
    ensures "url" in form && !IsValidYoutubeUrl(form["url"]) ==>
              o == Outcome(JsonError(400, "Invalid YouTube URL"), store, [])
    ensures "url" in form && IsValidYoutubeUrl(form["url"]) && GetVideoId(form["url"]).None? ==>
              o == Outcome(JsonError(400, "Could not extract video ID from URL"),
                           Sweep(MakeRoot(store), DefaultKeepMinutes, undeletable), PreparedSteps)
    ensures o.reply.JsonError? && o.reply.status == 500 ==> ServerErrorPrefix <= o.reply.error
    ensures o.reply.JsonError? ==> o.reply.status == 400 || o.reply.status == 500
  {
    if "url" !in form then
      Outcome(ServerError(MissingUrlKey), store, [])
    else
      var url := form["url"];
      if !IsValidYoutubeUrl(url) then
        Outcome(JsonError(400, "Invalid YouTube URL"), store, [])
      else
        var swept := Sweep(MakeRoot(store), DefaultKeepMinutes, undeletable);
        match GetVideoId(url)
        case None =>
          Outcome(JsonError(400, "Could not extract video ID from URL"), swept, PreparedSteps)
        case Some(id) =>
          FromVideoFolder(swept.entries, id, undeletable, download)
  }

  /** Lines 75-145, from the per-video folder onwards, given the downloads
      folder after the sweep. */
  function FromVideoFolder(entries: map<string, Entry>, id: string, undeletable: set<string>, download: Download)
    : (o: Outcome)
    ensures o.reply.JsonError? ==> o.reply.status == 500 && ServerErrorPrefix <= o.reply.error
    ensures o.store.Present?
    ensures ResetVideoFolder(entries, id, undeletable).Failure? ==>
              o.reply == ServerError(ResetVideoFolder(entries, id, undeletable).error)
    ensures ResetVideoFolder(entries, id, undeletable).Success? && download.DownloadRaised? ==>
              o.reply == ServerError(download.message)
    ensures ResetVideoFolder(entries, id, undeletable).Success? && download.Downloaded? && download.written != [] ==>
              o.reply == SendFile(id, download.written[0], "video/mp4", NoCacheHeaders)
  {
    match ResetVideoFolder(entries, id, undeletable)
    case Failure(message) =>
      Outcome(ServerError(message), Present(entries), PreparedSteps)
    case Success(reset) =>
      var purged := PurgePrefix(reset, id, undeletable);
      match download
      case DownloadRaised(message) =>
        Outcome(ServerError(message), Present(purged), DownloadSteps)
      case NoInfo =>
        Outcome(ServerError("Failed to extract video information"), Present(purged),
                DownloadSteps)
      case Downloaded(written) =>
        ServeDownloaded(purged, id, written)
  }

  /** A 400 reply comes exactly from a URL that fails the check or yields no
      id; a missing form field is a 500, because the `BadRequestKeyError` it
      raises is caught by the handler's general exception clause. */
  lemma BadRequestExactly(form: map<string, string>, store: Store, undeletable: set<string>, download: Download)
    ensures var o := DownloadVideo(form, store, undeletable, download);
            o.reply.JsonError? && o.reply.status == 400
            <==> "url" in form && (!IsValidYoutubeUrl(form["url"]) || GetVideoId(form["url"]).None?)
  {
  }

  /** A file is sent only from the folder named by the extracted id, it is
      one the download just wrote, and it goes out as `video/mp4` with the
      no-cache headers.  Nothing left over from an earlier request can be
      served, because the per-video folder is emptied before the download. */
  lemma SentFileIsFresh(form: map<string, string>, store: Store, undeletable: set<string>, download: Download)
    ensures var o := DownloadVideo(form, store, undeletable, download);
            o.reply.SendFile? ==>
            && "url" in form && GetVideoId(form["url"]) == Some(o.reply.folder)
            && download.Downloaded? && o.reply.fileName in download.written
            && o.reply.mimetype == "video/mp4" && HasNoCacheHeaders(o.reply.headers)
            && o.store.Present? && o.reply.folder in o.store.entries
            && o.store.entries[o.reply.folder].node == Folder(set n | n in download.written)
  {
  }

  /** The purge of lines 81-90 also deletes the per-video folder created on
      line 78.  So when yt_dlp writes nothing, listing that folder normally
      fails because it no longer exists, and the "No files were downloaded"
      message is reachable only when the folder was new and the system refused
      to delete it. */
  lemma NoFilesOnlyIfFolderKept(form: map<string, string>, store: Store, undeletable: set<string>, download: Download)
    ensures "url" in form && IsValidYoutubeUrl(form["url"]) && GetVideoId(form["url"]).Some?
            && download == Downloaded([]) ==>
            var o := DownloadVideo(form, store, undeletable, download);
            var id := GetVideoId(form["url"]).value;
            o.reply.JsonError? && o.reply.status == 500 &&
            (o.reply.error == ServerErrorPrefix + "No files were downloaded" <==>
             id in undeletable && id !in MakeRoot(store).entries)
  {
    if "url" !in form || !IsValidYoutubeUrl(form["url"]) || GetVideoId(form["url"]).None? || download != Downloaded([]) {
      return;
    }
    var id := GetVideoId(form["url"]).value;
    var root := MakeRoot(store).entries;
    var swept := Sweep(MakeRoot(store), DefaultKeepMinutes, undeletable).entries;
    assert DownloadVideo(form, store, undeletable, download) == FromVideoFolder(swept, id, undeletable, download);
    assert id in undeletable ==> (id in swept <==> id in root);
    NoFilesInFolder(swept, id, undeletable);
  }

  /** `NoFilesOnlyIfFolderKept` for the part after the sweep. */
  lemma NoFilesInFolder(entries: map<string, Entry>, id: string, undeletable: set<string>)
    ensures var o := FromVideoFolder(entries, id, undeletable, Downloaded([]));
            o.reply.JsonError? &&
            (o.reply.error == ServerErrorPrefix + "No files were downloaded" <==>
             id in undeletable && id !in entries)
  {
    var noFiles := ServerErrorPrefix + "No files were downloaded";
    var o := FromVideoFolder(entries, id, undeletable, Downloaded([]));
    match ResetVideoFolder(entries, id, undeletable)
    case Failure(message) =>
      assert message == NotADirectory(id) || message == PermissionDenied(id);
      assert o.reply.error[|ServerErrorPrefix|] == '[' != noFiles[|ServerErrorPrefix|];
    case Success(reset) =>
      PurgeRemovesFreshFolder(entries, id, undeletable);
      if id !in undeletable {
        assert o.reply.error == ServerErrorPrefix + NoSuchDirectory(id);
        assert o.reply.error[|ServerErrorPrefix|] == '[' != noFiles[|ServerErrorPrefix|];
      }
  }

  /** A download that wrote files is answered with the first of them, from
      the id's folder, as `video/mp4` with the no-cache headers. */
  lemma WrittenFileIsSent(form: map<string, string>, store: Store, undeletable: set<string>, written: seq<string>)
    ensures && "url" in form && IsValidYoutubeUrl(form["url"]) && GetVideoId(form["url"]).Some?
            && ResetVideoFolder(Sweep(MakeRoot(store), DefaultKeepMinutes, undeletable).entries,
                                GetVideoId(form["url"]).value, undeletable).Success?
            && written != [] ==>
            DownloadVideo(form, store, undeletable, Downloaded(written)).reply
            == SendFile(GetVideoId(form["url"]).value, written[0], "video/mp4", NoCacheHeaders)
  {
  }

  /** Once the id is known, a 500 carries the prefixed text of exactly the
      exception raised: the refused reset of the per-video folder, yt_dlp's
      own failure, the missing information, or, with nothing written, listing
      a folder the purge removed or finding a kept one empty. */
  lemma ServerErrorIsCause(form: map<string, string>, store: Store, undeletable: set<string>, download: Download)
    ensures "url" in form && IsValidYoutubeUrl(form["url"]) && GetVideoId(form["url"]).Some? ==>
            var o := DownloadVideo(form, store, undeletable, download);
            var id := GetVideoId(form["url"]).value;
            var swept := Sweep(MakeRoot(store), DefaultKeepMinutes, undeletable).entries;
            match ResetVideoFolder(swept, id, undeletable)
            case Failure(message) => o.reply == ServerError(message)
            case Success(reset) =>
              match download
              case DownloadRaised(m) => o.reply == ServerError(m)
              case NoInfo => o.reply == ServerError("Failed to extract video information")
              case Downloaded(written) =>
                written == [] ==>
                o.reply == if id in PurgePrefix(reset, id, undeletable) then ServerError("No files were downloaded")
                           else ServerError(NoSuchDirectory(id))
  {
  }

  /** yt_dlp is called exactly when the URL passes, yields an id and the
      per-video folder could be replaced, whatever yt_dlp then does. */
  lemma DownloadReachedExactly(form: map<string, string>, store: Store, undeletable: set<string>, download: Download)
    ensures DownloadVideo(form, store, undeletable, download).steps == DownloadSteps
            <==> && "url" in form && IsValidYoutubeUrl(form["url"]) && GetVideoId(form["url"]).Some?
                 && ResetVideoFolder(Sweep(MakeRoot(store), DefaultKeepMinutes, undeletable).entries,
                                     GetVideoId(form["url"]).value, undeletable).Success?
  {
  }

  /** After a request that gets as far as the download, the only entries of
      the downloads folder whose names start with the video id are those the
      system refused to delete and the folder the download wrote; every entry
      not starting with the id is as the sweep left it. */
  lemma PrefixedEntriesCleared(form: map<string, string>, store: Store, undeletable: set<string>, download: Download,
                               name: string)
    ensures var o := DownloadVideo(form, store, undeletable, download);
            o.steps == DownloadSteps ==>
            var id := GetVideoId(form["url"]).value;
            var swept := Sweep(MakeRoot(store), DefaultKeepMinutes, undeletable);
            && o.store.Present?
            && (name in o.store.entries && id <= name ==>
                  name in undeletable || (name == id && download.Downloaded? && download.written != []))
            && (!(id <= name) ==>
                  (name in o.store.entries <==> name in swept.entries)
                  && (name in swept.entries ==> o.store.entries[name] == swept.entries[name]))
  {
    if "url" !in form || !IsValidYoutubeUrl(form["url"]) || GetVideoId(form["url"]).None? {
      return;
    }
    var id := GetVideoId(form["url"]).value;
    var swept := Sweep(MakeRoot(store), DefaultKeepMinutes, undeletable).entries;
    assert DownloadVideo(form, store, undeletable, download) == FromVideoFolder(swept, id, undeletable, download);
    PrefixedEntriesInFolder(swept, id, undeletable, download, name);
  }

  /** `PrefixedEntriesCleared` for the part after the sweep. */
  lemma PrefixedEntriesInFolder(entries: map<string, Entry>, id: string, undeletable: set<string>, download: Download,
                                name: string)
    ensures var o := FromVideoFolder(entries, id, undeletable, download);
            o.steps == DownloadSteps ==>
            && (name in o.store.entries && id <= name ==>
                  name in undeletable || (name == id && download.Downloaded? && download.written != []))
            && (!(id <= name) ==>
                  (name in o.store.entries <==> name in entries)
                  && (name in entries ==> o.store.entries[name] == entries[name]))
  {
    var o := FromVideoFolder(entries, id, undeletable, download);
    if o.steps != DownloadSteps {
      return;
    }
    assert |PreparedSteps| != |DownloadSteps|;
    var reset := ResetVideoFolder(entries, id, undeletable).value;
    var purged := PurgePrefix(reset, id, undeletable);
    if download.Downloaded? {
      assert o == ServeDownloaded(purged, id, download.written);
    } else {
      assert o.store == Present(purged);
    }
  }
}

=== FILE: filename.dfy ===
/**
  The filename sanitiser shared by both request handlers: keep only a fixed
  ASCII character set, trim dots and spaces from both ends, and fall back to
  "video" when nothing is left.
 */
module Filename {
  import opened Subsequences

  /** Characters the sanitiser keeps: `-_.() `, ASCII letters and ASCII digits. */
  predicate IsAllowed(c: char) {
    || c == '-' || c == '_' || c == '.' || c == '(' || c == ')' || c == ' '
    || ('a' <= c <= 'z') || ('A' <= c <= 'Z') || ('0' <= c <= '9')
  }

  /** Characters `str.strip('. ')` trims from either end. */
  predicate IsTrimmed(c: char) {
    c == '.' || c == ' '
  }

  predicate AllAllowed(s: string) {
    forall i :: 0 <= i < |s| ==> IsAllowed(s[i])
  }

  /** Neither end of `s` is a dot or a space. */
  predicate HasCleanEnds(s: string) {
    s != [] ==> !IsTrimmed(s[0]) && !IsTrimmed(s[|s| - 1])
  }

  /** The name used when the title leaves nothing behind. */
  const Fallback: string := "video"

  predicate AllTrimmed(s: string) {
    forall i :: 0 <= i < |s| ==> IsTrimmed(s[i])
  }

  /** The character filter `''.join(c for c in s if c in valid_chars)`:
      allowed characters of `s` only, in their original order. */
  function KeepAllowed(s: string): (r: string)
    ensures AllAllowed(r)
    ensures IsSubsequence(r, s)
  {
    if s == [] then []
    else if IsAllowed(s[0]) then [s[0]] + KeepAllowed(s[1..])
    else KeepAllowed(s[1..])
  }

  /** The filter keeps every allowed character as often as it occurs and drops
      every other character. */
  lemma {:induction false} KeepAllowedCounts(s: string)
    ensures forall c :: multiset(KeepAllowed(s))[c] == if IsAllowed(c) then multiset(s)[c] else 0
  {
    if s != [] {
      KeepAllowedCounts(s[1..]);
      assert s == [s[0]] + s[1..];
    }
  }

  /** `r` is what Python's `s.strip('. ')` returns: a contiguous piece of `s`
      with only dots and spaces cut off before and after it, and no dot or
      space left at either end. */
  ghost predicate IsTrimOf(r: string, s: string) {
    exists i, j :: 0 <= i <= j <= |s| && r == s[i..j]
      && (forall k :: 0 <= k < i ==> IsTrimmed(s[k]))
      && (forall k :: j <= k < |s| ==> IsTrimmed(s[k]))
      && HasCleanEnds(r)
  }

  /** Length of the run of dots and spaces at the front of `s`. */
  function LeadingRun(s: string): (n: nat)
    ensures n <= |s|
    ensures forall k :: 0 <= k < n ==> IsTrimmed(s[k])
    ensures n < |s| ==> !IsTrimmed(s[n])
  {
    if s == [] || !IsTrimmed(s[0]) then 0 else 1 + LeadingRun(s[1..])
  }

  /** Length of the run of dots and spaces at the back of `s`. */
  function TrailingRun(s: string): (n: nat)
    ensures n <= |s|
    ensures forall k :: |s| - n <= k < |s| ==> IsTrimmed(s[k])
    ensures n < |s| ==> !IsTrimmed(s[|s| - 1 - n])
  {
    if s == [] || !IsTrimmed(s[|s| - 1]) then 0 else 1 + TrailingRun(s[..|s| - 1])
  }

  /** `s.strip('. ')`. */
  function Strip(s: string): (r: string)
    ensures IsTrimOf(r, s)
    ensures r == [] <==> AllTrimmed(s)
    ensures AllAllowed(s) ==> AllAllowed(r)
  {
    var i := LeadingRun(s);
    if i == |s| then
      assert IsTrimOf([], s) by {
        assert [] == s[|s|..|s|];
      }
      []
    else
      var j := |s| - TrailingRun(s);
      assert i < j;
      s[i..j]
  }

  /** Every allowed character of `title` is a dot or a space, so nothing
      survives the filter and the trim. */
  predicate NothingUsable(title: string) {
    forall k :: 0 <= k < |title| && IsAllowed(title[k]) ==> IsTrimmed(title[k])
  }

  /** `sanitize_filename(title)`. */
  function SanitizeFilename(title: string): (r: string)
    ensures r != []
    ensures AllAllowed(r)
    ensures HasCleanEnds(r)
    ensures NothingUsable(title) ==> r == Fallback
    ensures !NothingUsable(title) ==> IsSubsequence(r, title)
    ensures !NothingUsable(title) ==> IsTrimOf(r, KeepAllowed(title))
  {
    var kept := KeepAllowed(title);
    var stripped := Strip(kept);
    KeptOnlyTrimmed(title);
    if stripped == [] then
      Fallback
    else
      TrimOfSubsequence(stripped, kept, title);
      TrimHasCleanEnds(stripped, kept);
      stripped
  }

  lemma TrimHasCleanEnds(r: string, s: string)
    requires IsTrimOf(r, s)
    ensures HasCleanEnds(r)
  {
  }

  /** The filtered title is dots and spaces alone exactly when the title has
      no other allowed character. */
  lemma {:induction false} KeptOnlyTrimmed(title: string)
    ensures AllTrimmed(KeepAllowed(title)) <==> NothingUsable(title)
  {
    if title != [] {
      KeptOnlyTrimmed(title[1..]);
      var rest := KeepAllowed(title[1..]);
      if IsAllowed(title[0]) {
        AllTrimmedCons(title[0], rest);
      }
      NothingUsableCons(title);
    }
  }

  lemma AllTrimmedCons(c: char, s: string)
    ensures AllTrimmed([c] + s) <==> IsTrimmed(c) && AllTrimmed(s)
  {
    if IsTrimmed(c) && AllTrimmed(s) {
      forall k | 0 <= k < |[c] + s|
        ensures IsTrimmed(([c] + s)[k])
      {
        if k > 0 {
          assert ([c] + s)[k] == s[k - 1];
        }
      }
    }
    if AllTrimmed([c] + s) {
      assert IsTrimmed(([c] + s)[0]);
      forall k | 0 <= k < |s|
        ensures IsTrimmed(s[k])
      {
        assert s[k] == ([c] + s)[k + 1];
      }
    }
  }

  lemma NothingUsableCons(t: string)
    requires t != []
    ensures NothingUsable(t) <==> (IsAllowed(t[0]) ==> IsTrimmed(t[0])) && NothingUsable(t[1..])
  {
    if (IsAllowed(t[0]) ==> IsTrimmed(t[0])) && NothingUsable(t[1..]) {
      forall k | 0 <= k < |t| && IsAllowed(t[k])
        ensures IsTrimmed(t[k])
      {
        if k > 0 {
          assert t[k] == t[1..][k - 1];
        }
      }
    }
    if NothingUsable(t) {
      forall k | 0 <= k < |t[1..]| && IsAllowed(t[1..][k])
        ensures IsTrimmed(t[1..][k])
      {
        assert t[1..][k] == t[k + 1];
      }
    }
  }

  lemma TrimOfSubsequence(r: string, a: string, b: string)
    requires IsTrimOf(r, a) && IsSubsequence(a, b)
    ensures IsSubsequence(r, b)
  {
    var i, j :| 0 <= i <= j <= |a| && r == a[i..j];
    SubsequenceSlice(a, b, i, j);
  }

  /** Filtering a string that is already within the character set changes nothing. */
  lemma {:induction false} KeepAllowedOfAllowed(s: string)
    requires AllAllowed(s)
    ensures KeepAllowed(s) == s
  {
    if s != [] {
      KeepAllowedOfAllowed(s[1..]);
    }
  }

  /** Filtering a string with no allowed character leaves nothing. */
  lemma {:induction false} KeepAllowedOfDisallowed(s: string)
    requires forall k :: 0 <= k < |s| ==> !IsAllowed(s[k])
    ensures KeepAllowed(s) == []
  {
    if s != [] {
      KeepAllowedOfDisallowed(s[1..]);
    }
  }

  /** Trimming a string whose ends are neither dot nor space changes nothing. */
  lemma StripOfClean(s: string)
    requires s != [] && HasCleanEnds(s)
    ensures Strip(s) == s
  {
    var i, j :| 0 <= i <= j <= |s| && Strip(s) == s[i..j]
      && (forall k :: 0 <= k < i ==> IsTrimmed(s[k]))
      && (forall k :: j <= k < |s| ==> IsTrimmed(s[k]));
    assert !IsTrimmed(s[0]) && !IsTrimmed(s[|s| - 1]);
    assert i == 0 && j == |s|;
  }

  /** The names the sanitiser leaves alone are exactly the non-empty names
      within the character set whose ends are neither dot nor space. */
  lemma SanitizeFixedPoints(s: string)
    ensures SanitizeFilename(s) == s <==> s != [] && AllAllowed(s) && HasCleanEnds(s)
  {
    if s != [] && AllAllowed(s) && HasCleanEnds(s) {
      KeepAllowedOfAllowed(s);
      StripOfClean(s);
    }
  }

  /** Sanitising twice is the same as sanitising once. */
  lemma SanitizeIdempotent(s: string)
    ensures SanitizeFilename(SanitizeFilename(s)) == SanitizeFilename(s)
  {
    SanitizeFixedPoints(SanitizeFilename(s));
  }

  /** A double quote never survives, so the name can sit between quotes in a header. */
  lemma SanitizedHasNoQuote(s: string)
    ensures '"' !in SanitizeFilename(s)
  {
    var r := SanitizeFilename(s);
    assert forall k :: 0 <= k < |r| ==> r[k] != '"' by {
      assert AllAllowed(r);
    }
  }

  /** The filter distributes over concatenation. */
  lemma {:induction false} KeepAllowedAppend(a: string, b: string)
    ensures KeepAllowed(a + b) == KeepAllowed(a) + KeepAllowed(b)
  {
    if a != [] {
      assert (a + b)[0] == a[0] && (a + b)[1..] == a[1..] + b;
      KeepAllowedAppend(a[1..], b);
    } else {
      assert a + b == b;
    }
  }

  /** A title with nothing but dots and spaces, or nothing at all, falls back to "video". */
  lemma SanitizeFallbackExamples()
    ensures SanitizeFilename("") == "video"
    ensures SanitizeFilename("...   ") == "video"
  {
    var dots := "...   ";
    assert NothingUsable(dots) by {
      forall k | 0 <= k < |dots|
        ensures IsTrimmed(dots[k])
      {
      }
    }
  }

  /** Characters outside the set between two clean runs of allowed characters
      simply disappear. */
  lemma SanitizeDropsDisallowed(head: string, junk: string, tail: string)
    requires AllAllowed(head) && AllAllowed(tail) && HasCleanEnds(head + tail) && head + tail != []
    requires forall k :: 0 <= k < |junk| ==> !IsAllowed(junk[k])
    ensures SanitizeFilename(head + junk + tail) == head + tail
  {
    var kept := head + tail;
    assert KeepAllowed(head + junk + tail) == kept by {
      KeepAllowedOfAllowed(head);
      KeepAllowedOfAllowed(tail);
      KeepAllowedOfDisallowed(junk);
      KeepAllowedAppend(head + junk, tail);
      KeepAllowedAppend(head, junk);
    }
    assert Strip(kept) == kept by {
      assert AllAllowed(kept);
      StripOfClean(kept);
    }
  }

  /** Punctuation outside the set is dropped while spaces, parentheses and dots
      stay: "My Video!! (2024).mp4" becomes "My Video (2024).mp4". */
  lemma SanitizeKeepsExample()
    ensures SanitizeFilename("My Video" + "!!" + " (2024).mp4") == "My Video" + " (2024).mp4"
  {
    var head, bangs, tail := "My Video", "!!", " (2024).mp4";
    assert AllAllowed(head) by {
      forall k | 0 <= k < |head| ensures IsAllowed(head[k]) { }
    }
    assert AllAllowed(tail) by {
      forall k | 0 <= k < |tail| ensures IsAllowed(tail[k]) { }
    }
    SanitizeDropsDisallowed(head, bangs, tail);
  }
}

=== FILE: http.dfy ===
/** Header names and values both request handlers put on a successful reply. */
module Http {
  import opened Wrappers

  /** Response headers by name. */
  type Headers = map<string, string>

  const CacheControlValue: string := "no-cache, no-store, must-revalidate"

  /** `headers.get(name)`. */
  function Lookup(headers: Headers, name: string): (r: Option<string>)
    ensures r.Some? <==> name in headers
    ensures r.Some? ==> r.value == headers[name]
  {
    if name in headers then Some(headers[name]) else None
  }

  /** The three headers both handlers add so that no cache keeps the video. */
  const NoCacheHeaders: Headers :=
    map["Cache-Control" := CacheControlValue, "Pragma" := "no-cache", "Expires" := "0"]

  /** `headers` carries all three no-cache headers with their fixed values. */
  predicate HasNoCacheHeaders(headers: Headers) {
    && "Cache-Control" in headers && headers["Cache-Control"] == CacheControlValue
    && "Pragma" in headers && headers["Pragma"] == "no-cache"
    && "Expires" in headers && headers["Expires"] == "0"
  }
}

=== FILE: stream_handler.dfy ===
/**
  The `/download` handler of app.py: check the form field, ask yt_dlp for
  the stream location, title and extension without downloading, open the
  upstream stream, and relay it to the client as an attachment.

  yt_dlp and `requests.get` are opaque.  Their effects are the parameters
  `extraction` (what `extract_info(url, download=False)` did) and `upstream`
  (what `requests.get` on the resolved stream location did).  Upstream
  header names are given in lower case, as `requests` matches them without
  regard to case.
 */
module StreamHandler {
  import opened Wrappers
  import opened Filename
  import opened YoutubeUrl
  import opened ChunkStream
  import opened Http

  /** What `ydl.extract_info(url, download=False)` did. */
  datatype Extraction =
    | ExtractRaised(message: string)
    | NoInfo
    | Extracted(info: map<string, string>)

  /** What `requests.get(video_url, stream=True, ...)` did. */
  datatype Upstream =
    | FetchRaised(message: string)
    | Fetched(status: int, headers: Headers, chunks: seq<Chunk>)

  /** The reply: a JSON error with a status, or the streamed body. */
  datatype Reply =
    | JsonError(status: int, error: string)
    | Stream(status: int, headers: Headers, body: seq<Chunk>)

  /** The fields the handler reads from the extracted information. */
  datatype Resolved = Resolved(videoUrl: string, title: string, ext: string)

  /** The text of the `TypeError` raised by subscripting `None`. */
  const NoneNotSubscriptable: string := "'NoneType' object is not subscriptable"

  /** The text of Python's `KeyError(key)`. */
  function KeyErrorText(key: string): string {
    "'" + key + "'"
  }

  /** `request.form.get('url')`, with the empty string treated as missing
      because `not url` holds for it. */
  function RequestedUrl(form: map<string, string>): (r: Option<string>)
    ensures r.None? <==> "url" !in form || form["url"] == ""
    ensures r.Some? ==> r.value == form["url"] && r.value != ""
  {
    if "url" in form && form["url"] != "" then Some(form["url"]) else None
  }

  /** Lines 79-82: read `url`, `title` and `ext`, in that order, from the
      extracted information; the first one missing raises `KeyError`. */
  function ReadInfo(extraction: Extraction): (r: Result<Resolved, string>)
    ensures extraction.ExtractRaised? ==> r == Failure(extraction.message)
    ensures extraction.NoInfo? ==> r == Failure(NoneNotSubscriptable)
    ensures extraction.Extracted? ==>
              (r.Success? <==> "url" in extraction.info && "title" in extraction.info && "ext" in extraction.info)
    ensures r.Success? ==> extraction.Extracted? && r.value == Resolved(extraction.info["url"],
                                                                         extraction.info["title"],
                                                                         extraction.info["ext"])
  {
    match extraction
    case ExtractRaised(message) => Failure(message)
    case NoInfo => Failure(NoneNotSubscriptable)
    case Extracted(info) =>
      if "url" !in info then Failure(KeyErrorText("url"))
      else if "title" !in info then Failure(KeyErrorText("title"))
      else if "ext" !in info then Failure(KeyErrorText("ext"))
      else Success(Resolved(info["url"], info["title"], info["ext"]))
  }

  /** Lines 85-86: the name the client saves the video under. */
  function AttachmentFilename(title: string, ext: string): string {
    SanitizeFilename(title) + "." + ext
  }

  /** The position of the last `c` in `s`, if any. */
  function LastIndexOf(s: string, c: char): (r: Option<nat>)
    ensures r.None? <==> c !in s
    ensures r.Some? ==> r.value < |s| && s[r.value] == c && c !in s[r.value + 1..]
  {
    if s == [] then None
    else if s[|s| - 1] == c then Some(|s| - 1)
    else
      var r := LastIndexOf(s[..|s| - 1], c);
      assert r.Some? ==> s[r.value + 1..] == s[..|s| - 1][r.value + 1..] + [s[|s| - 1]];
      r
  }

  /** How a client reads a saved name back: the stem before the last dot and
      the extension after it. */
  function SplitExtension(filename: string): (r: Option<(string, string)>)
    ensures r.None? <==> '.' !in filename
    ensures r.Some? ==> r.value.0 + "." + r.value.1 == filename && '.' !in r.value.1
  {
    match LastIndexOf(filename, '.')
    case None => None
    case Some(i) =>
      assert filename[..i] + "." + filename[i + 1..] == filename;
      Some((filename[..i], filename[i + 1..]))
  }

  /** A stem, a dot and a dot-free extension split back into the two parts. */
  lemma SplitJoin(stem: string, ext: string)
    requires '.' !in ext
    ensures SplitExtension(stem + "." + ext) == Some((stem, ext))
  {
    var f := stem + "." + ext;
    var i := LastIndexOf(f, '.').value;
    assert f[|stem|] == '.';
    assert forall k :: i < k < |f| ==> f[k] != '.' by {
      forall k | i < k < |f|
        ensures f[k] != '.'
      {
        assert f[k] == f[i + 1..][k - i - 1];
      }
    }
    assert forall k :: |stem| < k < |f| ==> f[k] != '.' by {
      forall k | |stem| < k < |f|
        ensures f[k] != '.'
      {
        assert f[k] == ext[k - |stem| - 1];
      }
    }
    assert i == |stem|;
    assert f[..i] == stem;
    assert f[i + 1..] == ext;
  }

  /** The saved name splits back into the sanitised title and the extension
      whenever the extension has no dot of its own, as `mp4` or `webm`. */
  lemma FilenameSplitsBack(title: string, ext: string)
    requires '.' !in ext
    ensures SplitExtension(AttachmentFilename(title, ext)) == Some((SanitizeFilename(title), ext))
  {
    SplitJoin(SanitizeFilename(title), ext);
  }

  const DispositionPrefix: string := "attachment; filename=\""

  /** Line 104: the `Content-Disposition` value naming the saved file. */
  function ContentDisposition(filename: string): string {
    DispositionPrefix + filename + "\""
  }

  /** How a client reads the file name out of a quoted `Content-Disposition`
      value: everything between the opening quote and the closing one, which
      must be the only other quote. */
  function ParseDisposition(value: string): (r: Option<string>)
    ensures r.Some? ==> ContentDisposition(r.value) == value && '"' !in r.value
  {
    var n := |DispositionPrefix|;
    if |value| > n && DispositionPrefix <= value && value[|value| - 1] == '"' && '"' !in value[n..|value| - 1] then
      assert value == value[..n] + value[n..|value| - 1] + [value[|value| - 1]];
      Some(value[n..|value| - 1])
    else
      None
  }

  /** A quote-free file name survives the round trip through the header. */
  lemma DispositionRoundTrip(filename: string)
    requires '"' !in filename
    ensures ParseDisposition(ContentDisposition(filename)) == Some(filename)
  {
    var v := ContentDisposition(filename);
    var n := |DispositionPrefix|;
    assert v[..n] == DispositionPrefix;
    assert v[n..|v| - 1] == filename;
  }

  /** The sanitised title never contains a quote, so the header always names
      the whole saved file whenever the extension has none. */
  lemma DispositionNamesFile(title: string, ext: string)
    requires '"' !in ext
    ensures ParseDisposition(ContentDisposition(AttachmentFilename(title, ext))) == Some(AttachmentFilename(title, ext))
  {
    SanitizedHasNoQuote(title);
    assert '"' !in AttachmentFilename(title, ext);
    DispositionRoundTrip(AttachmentFilename(title, ext));
  }

  /** Lines 98-109: the headers of the streamed reply.  The content type is
      the upstream one or `video/mp4`; the upstream length is passed on when
      there is one. */
  function StreamHeaders(upstream: Headers, filename: string): (h: Headers)
    ensures "Content-Disposition" in h && h["Content-Disposition"] == ContentDisposition(filename)
    ensures "Accept-Ranges" in h && h["Accept-Ranges"] == "bytes"
    ensures HasNoCacheHeaders(h)
    ensures "Content-Type" in h && h["Content-Type"] == if "content-type" in upstream then upstream["content-type"] else "video/mp4"
    ensures "Content-Length" in h <==> "content-length" in upstream
    ensures "Content-Length" in h ==> h["Content-Length"] == upstream["content-length"]
  {
    var contentType := Lookup(upstream, "content-type").GetOr("video/mp4");
    var fixed := NoCacheHeaders + map["Content-Type" := contentType,
                                      "Content-Disposition" := ContentDisposition(filename),
                                      "Accept-Ranges" := "bytes"];
    if "content-length" in upstream then fixed["Content-Length" := upstream["content-length"]] else fixed
  }

  /** `download_video()` in app.py for the form fields `form`, the yt_dlp
      effect `extraction` and the upstream fetch `upstream`.  Every exception
      raised after the input checks becomes a 500 whose text is the
      exception's own. */
  function DownloadStream(form: map<string, string>, extraction: Extraction, upstream: Upstream): (r: Reply)
    ensures RequestedUrl(form).None? ==> r == JsonError(400, "No URL provided")
    ensures RequestedUrl(form).Some? && !IsValidYoutubeUrl(form["url"]) ==> r == JsonError(400, "Invalid YouTube URL")
    ensures r.JsonError? ==> r.status == 400 || r.status == 500
    ensures r.Stream? ==> r.status == 200 && ReadInfo(extraction).Success? && upstream.Fetched?
    ensures r.Stream? ==> r.body == Generate(upstream.chunks)
    ensures r.Stream? ==> r.headers == StreamHeaders(upstream.headers, AttachmentFilename(extraction.info["title"],
                                                                                         extraction.info["ext"]))
  {
    match RequestedUrl(form)
    case None => JsonError(400, "No URL provided")
    case Some(url) =>
      if !IsValidYoutubeUrl(url) then JsonError(400, "Invalid YouTube URL")
      else
        match ReadInfo(extraction)
        case Failure(message) => JsonError(500, message)
        case Success(resolved) =>
          var filename := AttachmentFilename(resolved.title, resolved.ext);
          match upstream
          case FetchRaised(message) => JsonError(500, message)
          case Fetched(_, headers, chunks) =>
            Stream(200, StreamHeaders(headers, filename), Generate(chunks))
  }

  /** A 400 reply comes exactly from a missing, empty or rejected URL, and
      nothing after the input checks can produce one. */
  lemma BadRequestExactly(form: map<string, string>, extraction: Extraction, upstream: Upstream)
    ensures var r := DownloadStream(form, extraction, upstream);
            r.JsonError? && r.status == 400
            <==> "url" !in form || !IsValidYoutubeUrl(form["url"])
  {
    if "url" in form && form["url"] == "" && IsValidYoutubeUrl(form["url"]) {
      ValidUrlLength(form["url"]);
    }
  }

  /** A 500 reply carries the raised exception's text unchanged: the yt_dlp
      failure, the subscript of a missing result, the first missing field,
      or the upstream failure. */
  lemma ServerErrorIsCause(form: map<string, string>, extraction: Extraction, upstream: Upstream)
    requires var r := DownloadStream(form, extraction, upstream); r.JsonError? && r.status == 500
    ensures var r := DownloadStream(form, extraction, upstream);
            && RequestedUrl(form).Some? && IsValidYoutubeUrl(form["url"])
            && match extraction
               case ExtractRaised(m) => r.error == m
               case NoInfo => r.error == NoneNotSubscriptable
               case Extracted(info) =>
                 if "url" !in info then r.error == KeyErrorText("url")
                 else if "title" !in info then r.error == KeyErrorText("title")
                 else if "ext" !in info then r.error == KeyErrorText("ext")
                 else upstream.FetchRaised? && r.error == upstream.message
  {
  }

  /** A streamed reply names the saved file after the sanitised title and the
      extension, forwards exactly the upstream bytes in non-empty chunks,
      carries the fixed download headers, takes its content type from the
      upstream (or `video/mp4`) and passes on the upstream length. */
  lemma StreamReplyContents(form: map<string, string>, extraction: Extraction, upstream: Upstream)
    ensures var r := DownloadStream(form, extraction, upstream);
            r.Stream? ==>
            var info := extraction.info;
            && extraction.Extracted? && "title" in info && "ext" in info
            && "Content-Disposition" in r.headers && "Accept-Ranges" in r.headers
            && r.headers["Content-Disposition"] == ContentDisposition(AttachmentFilename(info["title"], info["ext"]))
            && r.headers["Accept-Ranges"] == "bytes"
            && HasNoCacheHeaders(r.headers)
            && "Content-Type" in r.headers
            && r.headers["Content-Type"] == Lookup(upstream.headers, "content-type").GetOr("video/mp4")
            && ("Content-Length" in r.headers <==> "content-length" in upstream.headers)
            && ("Content-Length" in r.headers ==> r.headers["Content-Length"] == upstream.headers["content-length"])
            && Flatten(r.body) == Flatten(upstream.chunks)
            && (forall i :: 0 <= i < |r.body| ==> r.body[i] != [])
  {
  }

  /** The upstream status code plays no part: an error status from the
      stream location is relayed as a 200 stream of whatever body came with
      it. */
  lemma UpstreamStatusIgnored(form: map<string, string>, extraction: Extraction, upstream: Upstream, status: int)
    requires upstream.Fetched?
    ensures DownloadStream(form, extraction, upstream) == DownloadStream(form, extraction, upstream.(status := status))
  {
  }
}

=== FILE: subsequences.dfy ===
/** Order-preserving subsequences, used for the filename filter and the chunk filter. */
module Subsequences {

  /** `a` can be obtained from `b` by deleting elements, keeping the order. */
  predicate IsSubsequence<T(==)>(a: seq<T>, b: seq<T>)
    decreases |b|
  {
    if a == [] then true
    else if b == [] then false
    else if a[0] == b[0] then IsSubsequence(a[1..], b[1..])
    else IsSubsequence(a, b[1..])
  }

  /** Deleting the first element of a subsequence keeps it a subsequence. */
  lemma {:induction false} SubsequenceDropFirst<T>(a: seq<T>, b: seq<T>)
    requires a != [] && IsSubsequence(a, b)
    ensures IsSubsequence(a[1..], b)
    decreases |b|, 0
  {
    if a[0] == b[0] {
      SubsequenceWeaken(a[1..], b[1..], b[0]);
    } else {
      SubsequenceDropFirst(a, b[1..]);
      SubsequenceWeaken(a[1..], b[1..], b[0]);
    }
  }

  /** A subsequence of `b` is a subsequence of `[c] + b`. */
  lemma {:induction false} SubsequenceWeaken<T>(a: seq<T>, b: seq<T>, c: T)
    requires IsSubsequence(a, b)
    ensures IsSubsequence(a, [c] + b)
    decreases |b|, 1
  {
    assert ([c] + b)[1..] == b;
    if a != [] && a[0] == c {
      SubsequenceDropFirst(a, b);
    }
  }

  /** Deleting the last element of a subsequence keeps it a subsequence. */
  lemma {:induction false} SubsequenceDropLast<T>(a: seq<T>, b: seq<T>)
    requires a != [] && IsSubsequence(a, b)
    ensures IsSubsequence(a[..|a| - 1], b)
    decreases |b|
  {
    if |a| == 1 {
      assert a[..0] == [];
    } else if a[0] == b[0] {
      SubsequenceDropLast(a[1..], b[1..]);
      assert a[1..][..|a[1..]| - 1] == a[..|a| - 1][1..];
    } else {
      SubsequenceDropLast(a, b[1..]);
    }
  }

  /** Dropping a prefix of a subsequence keeps it a subsequence. */
  lemma {:induction false} SubsequenceDropPrefix<T>(a: seq<T>, b: seq<T>, i: nat)
    requires i <= |a| && IsSubsequence(a, b)
    ensures IsSubsequence(a[i..], b)
    decreases i
  {
    if i > 0 {
      SubsequenceDropFirst(a, b);
      SubsequenceDropPrefix(a[1..], b, i - 1);
      assert a[1..][i - 1..] == a[i..];
    }
  }

  /** Keeping only a prefix of a subsequence keeps it a subsequence. */
  lemma {:induction false} SubsequenceTakePrefix<T>(a: seq<T>, b: seq<T>, j: nat)
    requires j <= |a| && IsSubsequence(a, b)
    ensures IsSubsequence(a[..j], b)
    decreases |a|
  {
    if j < |a| {
      SubsequenceDropLast(a, b);
      SubsequenceTakePrefix(a[..|a| - 1], b, j);
      assert a[..|a| - 1][..j] == a[..j];
    } else {
      assert a[..j] == a;
    }
  }

  /** Any contiguous piece of a subsequence of `b` is a subsequence of `b`. */
  lemma SubsequenceSlice<T>(a: seq<T>, b: seq<T>, i: nat, j: nat)
    requires i <= j <= |a| && IsSubsequence(a, b)
    ensures IsSubsequence(a[i..j], b)
  {
    SubsequenceTakePrefix(a, b, j);
    SubsequenceDropPrefix(a[..j], b, i);
    assert a[..j][i..] == a[i..j];
  }
}

=== FILE: variants.dfy ===
/** How the two handlers, youtube.py's download-to-disk and app.py's relay,
    compare on the same form input. */
module Variants {
  import opened YoutubeUrl
  import DiskHandler
  import StreamHandler
  import ArtifactStore

  /** The handlers disagree on a missing or empty `url` field: the disk
      variant indexes the form, so a missing field is a caught `BadRequestKeyError` (500)
      and an empty one fails the URL check (400), while the relay treats both
      as no URL (400). */
  lemma MissingOrEmptyUrl(form: map<string, string>, store: ArtifactStore.Store, undeletable: set<string>,
                          download: DiskHandler.Download, extraction: StreamHandler.Extraction,
                          upstream: StreamHandler.Upstream)
    requires "url" !in form || form["url"] == ""
    ensures StreamHandler.DownloadStream(form, extraction, upstream) == StreamHandler.JsonError(400, "No URL provided")
    ensures DiskHandler.DownloadVideo(form, store, undeletable, download).reply ==
            if "url" in form then DiskHandler.JsonError(400, "Invalid YouTube URL")
            else DiskHandler.JsonError(500, DiskHandler.ServerErrorPrefix + DiskHandler.MissingUrlKey)
  {
    if "url" in form && IsValidYoutubeUrl(form["url"]) {
      ValidUrlLength(form["url"]);
    }
  }

  /** For a non-empty `url` field both handlers apply the same URL check, and
      a rejected URL leaves both with the same 400 reply. */
  lemma SameUrlCheck(form: map<string, string>, store: ArtifactStore.Store, undeletable: set<string>,
                     download: DiskHandler.Download, extraction: StreamHandler.Extraction,
                     upstream: StreamHandler.Upstream)
    requires "url" in form && form["url"] != ""
    ensures var disk := DiskHandler.DownloadVideo(form, store, undeletable, download).reply;
            var relay := StreamHandler.DownloadStream(form, extraction, upstream);
            (disk == DiskHandler.JsonError(400, "Invalid YouTube URL")
             <==> relay == StreamHandler.JsonError(400, "Invalid YouTube URL"))
            && (disk == DiskHandler.JsonError(400, "Invalid YouTube URL") <==> !IsValidYoutubeUrl(form["url"]))
  {
  }
}

=== FILE: wrappers.dfy ===
/** Optional values (Python's `None` versus a present value) and results that
    are either a value or the text of a raised exception. */
module Wrappers {

  datatype Option<+T> = None | Some(value: T) {

    /** The present value, or `default` when there is none (Python's `dict.get(k, default)`). */
    function GetOr(default: T): T {
      match this
      case Some(v) => v
      case None => default
    }
  }

  /** A step that either produced a value or raised an exception with the given text. */
  datatype Result<+R, +E> = Success(value: R) | Failure(error: E)
}

=== FILE: youtube_url.dfy ===
/**
  The two URL helpers shared by both request handlers.

  `IsValidYoutubeUrl` is the anchored-at-the-start match of
    (https?://)?(www\.)?(youtube|youtu|youtube-nocookie)\.(com|be)/(watch\?v=|embed/|v/|.+\?v=)?([^&=%\?]{11})
  written as one predicate per group, each taking the rest of the string
  after the previous group; a backtracking matcher accepts exactly when some
  choice of alternatives fits, which is what the disjunctions say.

  `GetVideoId` is the unanchored search for `(?:v=|/)([0-9A-Za-z_-]{11})`:
  the leftmost position where the marker and eleven id characters fit.
 */
module YoutubeUrl {
  import opened Wrappers

  // ---------------------------------------------------------------- acceptance

  /** One character of `[^&=%\?]`. */
  predicate IsTailChar(c: char) {
    c != '&' && c != '=' && c != '%' && c != '?'
  }

  /** `u` starts with eleven characters of `[^&=%\?]`. */
  predicate StartsWithTail(u: string) {
    |u| >= 11 && forall k :: 0 <= k < 11 ==> IsTailChar(u[k])
  }

  /** `(watch\?v=|embed/|v/|.+\?v=)?` then the eleven-character tail.  In the
      last alternative `.` is any character but a line feed and `+` needs at
      least one of them. */
  predicate PathThenTail(u: string) {
    || StartsWithTail(u)
    || ("watch?v=" <= u && StartsWithTail(u[8..]))
    || ("embed/" <= u && StartsWithTail(u[6..]))
    || ("v/" <= u && StartsWithTail(u[2..]))
    || exists k :: 1 <= k < |u| && QueryThenTail(u, k)
  }

  /** `.+\?v=` ends at `k + 3`: `k` line-feed-free characters, then `?v=`, then the tail. */
  predicate QueryThenTail(u: string, k: int) {
    && 1 <= k && k + 3 <= |u| && u[k..k + 3] == "?v="
    && (forall m :: 0 <= m < k ==> u[m] != '\n')
    && StartsWithTail(u[k + 3..])
  }

  /** `\.(com|be)/` then the rest. */
  predicate DomainThenPath(u: string) {
    || (".com/" <= u && PathThenTail(u[5..]))
    || (".be/" <= u && PathThenTail(u[4..]))
  }

  /** `(youtube|youtu|youtube-nocookie)` then the rest. */
  predicate HostThenRest(u: string) {
    || ("youtube" <= u && DomainThenPath(u[7..]))
    || ("youtu" <= u && DomainThenPath(u[5..]))
    || ("youtube-nocookie" <= u && DomainThenPath(u[16..]))
  }

  /** `(www\.)?` then the rest. */
  predicate WwwThenRest(u: string) {
    || HostThenRest(u)
    || ("www." <= u && HostThenRest(u[4..]))
  }

  /** `is_valid_youtube_url(url)`: `(https?://)?` then the rest, matched at the
      start of `url` only, so whatever follows a matching prefix is ignored. */
  predicate IsValidYoutubeUrl(url: string) {
    || WwwThenRest(url)
    || ("http://" <= url && WwwThenRest(url[7..]))
    || ("https://" <= url && WwwThenRest(url[8..]))
  }

  lemma DropPrefixAppend(u: string, s: string, n: nat)
    requires n <= |u|
    ensures (u + s)[n..] == u[n..] + s
  {
  }

  lemma LiteralPrefixAppend(p: string, u: string, s: string)
    requires p <= u
    ensures p <= u + s
  {
    assert (u + s)[..|p|] == u[..|p|];
  }

  lemma StartsWithTailAppend(u: string, s: string)
    requires StartsWithTail(u)
    ensures StartsWithTail(u + s)
  {
    assert forall k :: 0 <= k < 11 ==> (u + s)[k] == u[k];
  }

  lemma PathThenTailAppend(u: string, s: string)
    requires PathThenTail(u)
    ensures PathThenTail(u + s)
  {
    var v := u + s;
    if StartsWithTail(u) {
      StartsWithTailAppend(u, s);
    } else if "watch?v=" <= u && StartsWithTail(u[8..]) {
      LiteralPrefixAppend("watch?v=", u, s);
      DropPrefixAppend(u, s, 8);
      StartsWithTailAppend(u[8..], s);
    } else if "embed/" <= u && StartsWithTail(u[6..]) {
      LiteralPrefixAppend("embed/", u, s);
      DropPrefixAppend(u, s, 6);
      StartsWithTailAppend(u[6..], s);
    } else if "v/" <= u && StartsWithTail(u[2..]) {
      LiteralPrefixAppend("v/", u, s);
      DropPrefixAppend(u, s, 2);
      StartsWithTailAppend(u[2..], s);
    } else {
      var k :| 1 <= k < |u| && QueryThenTail(u, k);
      assert v[k..k + 3] == u[k..k + 3];
      assert forall m :: 0 <= m < k ==> v[m] == u[m];
      DropPrefixAppend(u, s, k + 3);
      StartsWithTailAppend(u[k + 3..], s);
      assert QueryThenTail(v, k);
    }
  }

  lemma DomainThenPathAppend(u: string, s: string)
    requires DomainThenPath(u)
    ensures DomainThenPath(u + s)
  {
    if ".com/" <= u && PathThenTail(u[5..]) {
      LiteralPrefixAppend(".com/", u, s);
      DropPrefixAppend(u, s, 5);
      PathThenTailAppend(u[5..], s);
    } else {
      LiteralPrefixAppend(".be/", u, s);
      DropPrefixAppend(u, s, 4);
      PathThenTailAppend(u[4..], s);
    }
  }

  lemma HostThenRestAppend(u: string, s: string)
    requires HostThenRest(u)
    ensures HostThenRest(u + s)
  {
    if "youtube" <= u && DomainThenPath(u[7..]) {
      LiteralPrefixAppend("youtube", u, s);
      DropPrefixAppend(u, s, 7);
      DomainThenPathAppend(u[7..], s);
    } else if "youtu" <= u && DomainThenPath(u[5..]) {
      LiteralPrefixAppend("youtu", u, s);
      DropPrefixAppend(u, s, 5);
      DomainThenPathAppend(u[5..], s);
    } else {
      LiteralPrefixAppend("youtube-nocookie", u, s);
      DropPrefixAppend(u, s, 16);
      DomainThenPathAppend(u[16..], s);
    }
  }

  lemma WwwThenRestAppend(u: string, s: string)
    requires WwwThenRest(u)
    ensures WwwThenRest(u + s)
  {
    if HostThenRest(u) {
      HostThenRestAppend(u, s);
    } else {
      LiteralPrefixAppend("www.", u, s);
      DropPrefixAppend(u, s, 4);
      HostThenRestAppend(u[4..], s);
    }
  }

  /** Only a prefix is matched: once `url` is accepted, so is anything that
      starts with it. */
  lemma ValidUrlExtends(url: string, s: string)
    requires IsValidYoutubeUrl(url)
    ensures IsValidYoutubeUrl(url + s)
  {
    if WwwThenRest(url) {
      WwwThenRestAppend(url, s);
    } else if "http://" <= url && WwwThenRest(url[7..]) {
      LiteralPrefixAppend("http://", url, s);
      DropPrefixAppend(url, s, 7);
      WwwThenRestAppend(url[7..], s);
    } else {
      LiteralPrefixAppend("https://", url, s);
      DropPrefixAppend(url, s, 8);
      WwwThenRestAppend(url[8..], s);
    }
  }

  lemma PathThenTailLength(u: string)
    requires PathThenTail(u)
    ensures |u| >= 11
  {
    if exists k :: 1 <= k < |u| && QueryThenTail(u, k) {
      var k :| 1 <= k < |u| && QueryThenTail(u, k);
      assert |u[k + 3..]| >= 11;
    }
  }

  lemma DomainThenPathLength(u: string)
    requires DomainThenPath(u)
    ensures |u| >= 15
  {
    if ".com/" <= u && PathThenTail(u[5..]) {
      PathThenTailLength(u[5..]);
    } else {
      PathThenTailLength(u[4..]);
    }
  }

  lemma HostThenRestLength(u: string)
    requires HostThenRest(u)
    ensures |u| >= 20
  {
    if "youtube" <= u && DomainThenPath(u[7..]) {
      DomainThenPathLength(u[7..]);
    } else if "youtu" <= u && DomainThenPath(u[5..]) {
      DomainThenPathLength(u[5..]);
    } else {
      DomainThenPathLength(u[16..]);
    }
  }

  /** The shortest accepted form is `youtu.be/` plus eleven characters, so an
      accepted URL has at least twenty characters; in particular "" is rejected. */
  lemma ValidUrlLength(url: string)
    requires IsValidYoutubeUrl(url)
    ensures |url| >= 20
  {
    if WwwThenRest(url) {
      WwwThenRestLength(url);
    } else if "http://" <= url && WwwThenRest(url[7..]) {
      WwwThenRestLength(url[7..]);
    } else {
      WwwThenRestLength(url[8..]);
    }
  }

  lemma WwwThenRestLength(u: string)
    requires WwwThenRest(u)
    ensures |u| >= 20
  {
    if HostThenRest(u) {
      HostThenRestLength(u);
    } else {
      HostThenRestLength(u[4..]);
    }
  }

  // ---------------------------------------------------------------- video id

  /** One character of `[0-9A-Za-z_-]`. */
  predicate IsIdChar(c: char) {
    ('0' <= c <= '9') || ('A' <= c <= 'Z') || ('a' <= c <= 'z') || c == '_' || c == '-'
  }

  const IdLength: nat := 11

  predicate IsVideoId(id: string) {
    |id| == IdLength && forall k :: 0 <= k < |id| ==> IsIdChar(id[k])
  }

  /** Eleven id characters start at index `i` of `s`. */
  predicate IdAt(s: string, i: nat) {
    i + IdLength <= |s| && forall k :: i <= k < i + IdLength ==> IsIdChar(s[k])
  }

  /** The pattern fits at index `i`: `v=` or `/` there, and an id right after it. */
  predicate FitsAt(s: string, i: nat) {
    || (i + 2 <= |s| && s[i] == 'v' && s[i + 1] == '=' && IdAt(s, i + 2))
    || (i < |s| && s[i] == '/' && IdAt(s, i + 1))
  }

  /** Where the captured id begins when the pattern fits at `i`. */
  function GroupStart(s: string, i: nat): (g: nat)
    requires FitsAt(s, i)
    ensures IdAt(s, g) && g <= i + 2
  {
    if s[i] == 'v' then i + 2 else i + 1
  }

  /** The leftmost index at or after `from` where the pattern fits. */
  function SearchFrom(s: string, from: nat): (r: Option<nat>)
    requires from <= |s|
    ensures r.None? ==> forall j :: from <= j < |s| ==> !FitsAt(s, j)
    ensures r.Some? ==> from <= r.value < |s| && FitsAt(s, r.value)
                        && forall j :: from <= j < r.value ==> !FitsAt(s, j)
    decreases |s| - from
  {
    if from == |s| then None
    else if FitsAt(s, from) then Some(from)
    else SearchFrom(s, from + 1)
  }

  /** `get_video_id(url)`: the id captured at the leftmost fit, if any. */
  function GetVideoId(url: string): (r: Option<string>)
    ensures r.None? <==> forall j :: 0 <= j < |url| ==> !FitsAt(url, j)
    ensures r.Some? ==> IsVideoId(r.value)
    ensures r.Some? ==> exists i :: 0 <= i < |url| && FitsAt(url, i)
                          && (forall j :: 0 <= j < i ==> !FitsAt(url, j))
                          && r.value == url[GroupStart(url, i)..GroupStart(url, i) + IdLength]
  {
    match SearchFrom(url, 0)
    case None => None
    case Some(i) =>
      var g := GroupStart(url, i);
      Some(url[g..g + IdLength])
  }

  const WatchPrefix: string := "https://www.youtube.com/watch?v="

  lemma AfterLiteral(p: string, x: string)
    ensures p <= p + x && (p + x)[|p|..] == x
  {
  }

  lemma HttpsAccepted(x: string)
    requires WwwThenRest(x)
    ensures IsValidYoutubeUrl("https://" + x)
  {
    AfterLiteral("https://", x);
  }

  lemma WwwAccepted(x: string)
    requires HostThenRest(x)
    ensures WwwThenRest("www." + x)
  {
    AfterLiteral("www.", x);
  }

  lemma YoutubeAccepted(x: string)
    requires DomainThenPath(x)
    ensures HostThenRest("youtube" + x)
  {
    AfterLiteral("youtube", x);
  }

  lemma ComAccepted(x: string)
    requires PathThenTail(x)
    ensures DomainThenPath(".com/" + x)
  {
    AfterLiteral(".com/", x);
  }

  lemma WatchAccepted(id: string)
    requires StartsWithTail(id)
    ensures PathThenTail("watch?v=" + id)
  {
    AfterLiteral("watch?v=", id);
  }

  /** The canonical watch address passes the check. */
  lemma WatchUrlValid(id: string)
    requires IsVideoId(id)
    ensures IsValidYoutubeUrl(WatchPrefix + id)
  {
    assert StartsWithTail(id);
    WatchAccepted(id);
    ComAccepted("watch?v=" + id);
    YoutubeAccepted(".com/" + ("watch?v=" + id));
    WwwAccepted("youtube" + (".com/" + ("watch?v=" + id)));
    HttpsAccepted("www." + ("youtube" + (".com/" + ("watch?v=" + id))));
    WatchUrlParts(id);
  }

  /** The watch address, group by group. */
  lemma WatchUrlParts(id: string)
    ensures WatchPrefix + id == "https://" + ("www." + ("youtube" + (".com/" + ("watch?v=" + id))))
  {
    assert WatchPrefix == "https://" + ("www." + ("youtube" + (".com/" + "watch?v=")));
  }

  /** The id read back from the canonical watch address is the one it was
      built from: nothing before the `v=` fits the pattern. */
  lemma WatchUrlId(id: string)
    requires IsVideoId(id)
    ensures GetVideoId(WatchPrefix + id) == Some(id)
  {
    var url := WatchPrefix + id;
    forall j: nat | j < 30
      ensures !FitsAt(url, j)
    {
      assert url[j] == WatchPrefix[j] && url[j + 1] == WatchPrefix[j + 1];
      if j == 6 {
        assert url[7] == '/';
      } else if j == 7 {
        assert url[11] == '.';
      } else if j == 23 {
        assert url[29] == '?';
      }
    }
    assert url[30] == 'v' && url[31] == '=';
    assert url[32..43] == id;
    assert IdAt(url, 32);
    assert FitsAt(url, 30);
    SearchSkips(url, 0, 30);
  }

  /** The search passes over a stretch where nothing fits. */
  lemma {:induction false} SearchSkips(s: string, from: nat, to: nat)
    requires from <= to <= |s|
    requires forall j: nat :: from <= j < to ==> !FitsAt(s, j)
    ensures SearchFrom(s, from) == SearchFrom(s, to)
    decreases |s| - from
  {
    if from < to {
      SearchSkips(s, from + 1, to);
    }
  }

  /** The check and the extraction disagree: the check admits any character
      but `&=%?` in the id, the extraction only `[0-9A-Za-z_-]`.  This URL
      passes the check yet has no id, which is why the disk handler still
      checks for a missing id after validation. */
  lemma ValidUrlWithoutId()
    ensures IsValidYoutubeUrl("youtu.be/" + "abc!defghij")
    ensures GetVideoId("youtu.be/" + "abc!defghij") == None
  {
    var url := "youtu.be/" + "abc!defghij";
    var tail := "abc!defghij";
    assert StartsWithTail(tail);
    AfterLiteral(".be/", tail);
    assert DomainThenPath(".be/" + tail);
    AfterLiteral("youtu", ".be/" + tail);
    assert HostThenRest("youtu" + (".be/" + tail));
    assert url == "youtu" + (".be/" + tail);
    forall j: nat | j < |url|
      ensures !FitsAt(url, j)
    {
      if j == 8 {
        assert url[12] == '!';
      }
    }
  }
}
